=== FILE: README.md ===
# Huffman coder of file_compressor.cpp, modelled in Dafny

`file_compressor.cpp` is a textbook Huffman coder that works on strings.
Given a text, `buildHuffmanTree` does five things:

1. It counts each character into an `unordered_map<char, int>`.
2. It pushes one leaf per distinct character into a min-priority queue ordered
   by frequency (`compare`).
3. It merges the two lightest nodes until one node is left, the root.
4. It walks the tree depth-first to give every leaf its root-to-leaf path as a
   code (`encode`: '0' = left, '1' = right), then concatenates the codes of the
   text's characters into a string of '0' and '1'.
5. It decodes that string again by repeated calls of `decode`, which walks from
   the root to a leaf and advances a shared `index`.

The model has one module per step:

- `Frequency` (frequency.dfy): the counting pass, `FreqTable`. It also gives
  the order of the distinct characters, `Distinct`.
- `Trees` (trees.dfy): the `Tree` datatype (`Leaf(ch, freq) | Node(freq, left,
  right)`, so every tree is a full binary tree). It defines walking a path of
  bits, `Follow` and `ReachesLeaf`, and the shape facts of a tree built from a
  text (`Consistent`).
- `Builder` (builder.dfy): the queue as a sequence, choosing a lightest node
  (`MinIndex`, `MinPair`), one merge (`Merge`), the loop invariant
  (`QueueInv`), the merge loop as a method (`MergeLoop`, called by `BuildTree`),
  and the fact that the invariant does not depend on the order of the queue
  (`QueueInvPermuted`, `AnyLeafOrder`).
- `CodeTable` (codes.dfy): the code table (`Codes`), prefix-freeness, the
  encoded string (`Encoding`, and the loop `EncodeText`), and its length.
- `Decoder` (decoder.dfy): one call of `decode` (`DecodeSymbol`) and the
  decoding loop (`DecodeWhile`). The loop's guard is a parameter: margin 1 is
  the corrected guard `index < |str| - 1`, and margin 2 is the guard at line 116.
- `RoundTrip` (roundtrip.dfy): decode after encode, and encode after decode.
  It also gives the exact behaviour of the loop as written at line 116.
- `Compressor` (compressor.dfy): the decoding loop as a method (`DecodeText`),
  and the whole of `buildHuffmanTree` (`BuildHuffmanTree`), which returns the
  values the C++ prints.

Bits are characters '0' and '1' in a `string`, as in the C++. A decode reads
"left on '0', right on anything else", exactly as line 57 does.

Four behaviours of `file_compressor.cpp` are easy to misread. The model keeps
each one as the code has it:

- **Empty input.** An empty text pushes no leaf, and line 82 then calls `top`
  and `pop` on an empty queue. `BuildTree` therefore requires a non-empty text.
- **One distinct character.** The root is then a leaf, and `encode` stores the
  empty string as its code (lines 36-37). The encoded string is empty and the
  loop at line 116 decodes nothing. `BuildHuffmanTree` states exactly this.
- **Order and ties.** The leaves come out of an `unordered_map` in an
  unspecified order (line 75). `priority_queue` leaves ties between equal
  frequencies unspecified (lines 24-28, 82-83). `MergeLoop` is proved for
  every queue that meets the loop invariant, and `AnyLeafOrder` shows that
  every order of the leaves meets it. `MergePreserves` holds whichever two
  nodes are merged. Each round merges two lightest nodes: `BuildTree` takes
  its pair from `MinPair`, whose minimality `MinimalMerge` states.
- **Output format.** The encoded string is a `std::string` of '0' and '1'.
  There is no bit packing, no tree header and no error reporting, so the
  model has none.

## Model

| member | source | states |
|---|---|---|
| Frequency.FreqTable | file_compressor.cpp:66-69 | the table has an entry exactly for the characters that occur in the text, and each entry is that character's number of occurrences |
| Frequency.CountsSumToLength | file_compressor.cpp:66-69 | the counts of the distinct characters add up to the length of the text |
| Frequency.Distinct | file_compressor.cpp:75-77 | the characters pushed as leaves are each character of the text once and nothing else |
| Frequency.DistinctCountsChars | file_compressor.cpp:75-77 | one leaf is pushed per distinct character |
| Trees.ConsistentFacts | file_compressor.cpp:75-77 | a tree built from the text holds only characters of the text, none twice, and has positive weight |
| Trees.InternalIsLeavesMinusOne | file_compressor.cpp:80-89 | every node made by a merge has two children, so a tree has one internal node fewer than leaves |
| Trees.LeafCountIsCharCount | file_compressor.cpp:75-77 | with distinct leaves, the number of leaves is the number of characters they hold |
| Trees.SingleLeafIffOneChar | file_compressor.cpp:80-92 | the root is a leaf exactly when the tree holds one character |
| Trees.FollowAppend | file_compressor.cpp:57-60 | walking a concatenation of bits walks the first part, then the second from where the first ended |
| Builder.MinIndex | file_compressor.cpp:24-28 | the node taken from the top is no heavier than any queued node |
| Builder.MinPair | file_compressor.cpp:82-83 | the first node popped is a lightest node, and the second is a lightest node of what is left |
| Builder.Merge | file_compressor.cpp:82-88 | one round removes the two popped nodes and pushes their parent, whose weight is their sum and whose children are the first and second popped; the other nodes stay |
| Builder.MinimalMerge | file_compressor.cpp:24-28 | the left child is no heavier than the right, and the right is no heavier than any node left in the queue |
| Builder.InitialQueue | file_compressor.cpp:75-77 | one leaf is queued per distinct character of the text, weighted by that character's number of occurrences |
| Builder.InitialQueueInv | file_compressor.cpp:72-77 | the initial leaves partition the characters of the text, and their weights add up to its length |
| Builder.MergePreserves | file_compressor.cpp:80-89 | merging any two queued nodes keeps the partition of the characters and the total weight, and shortens the queue by one |
| Builder.BuildTree | file_compressor.cpp:72-92 | the loop ends after one merge fewer than there are distinct characters; the root's leaves are exactly the characters of the text, once each, with their counts; internal nodes weigh the sum of their children; the root weighs the length of the text |
| Builder.MergeLoop | file_compressor.cpp:80-92 | from any queue that partitions the text's characters and weighs its length, the loop ends after one merge fewer than queued nodes with a root whose leaves are exactly the text's characters, once each, and which weighs the text's length |
| Builder.QueueInvPermuted | file_compressor.cpp:72-77 | the loop invariant depends only on which nodes are queued, not on their order |
| Builder.AnyLeafOrder | file_compressor.cpp:75-77 | whatever order the map hands out its entries in, the queued leaves meet the loop invariant |
| CodeTable.Codes | file_compressor.cpp:31-42 | the table has an entry exactly for the leaf characters, and each entry extends the path walked so far |
| CodeTable.CodeIsPath | file_compressor.cpp:31-42 | each entry is the path of bits from the root to that character's leaf, and is non-empty below an internal root |
| CodeTable.CodeIsBits | file_compressor.cpp:40-41 | every entry is made of '0' and '1' |
| CodeTable.PathUnique | file_compressor.cpp:31-42 | with distinct leaves, there is only one path of bits to each character |
| CodeTable.CodesArePrefixFree | file_compressor.cpp:31-42 | no code is a prefix of the code of another character |
| CodeTable.Encoding | file_compressor.cpp:106-109 | the encoding of a text is made of '0' and '1' when the codes are |
| CodeTable.EncodingCons | file_compressor.cpp:106-109 | the encoding of a text starts with the code of its first character |
| CodeTable.EncodingAppend | file_compressor.cpp:106-109 | the encoding of two texts one after the other is the encoding of the first followed by that of the second |
| CodeTable.EncodingWithoutCode | file_compressor.cpp:108 | reading the code of a character with no entry through the map's `operator[]` gives the empty string, so such a character adds nothing to the encoded string |
| CodeTable.EncodeText | file_compressor.cpp:106-109 | the encoding loop yields the codes of the text's characters in order, concatenated |
| CodeTable.EncodingLength | file_compressor.cpp:106-109 | the encoded string's length is the sum over the distinct characters of frequency times code length |
| CodeTable.EncodedLength | file_compressor.cpp:106-109 | the encoded string's length is the sum over the leaves of frequency times depth |
| CodeTable.WeightedDepthIsCost | file_compressor.cpp:87-88 | for a built tree, frequency times depth summed over the leaves equals the total weight of the merged nodes |
| Decoder.DecodeSymbol | file_compressor.cpp:45-61 | one decode leaves the index within the string, and advances it by at least one bit when the root is internal |
| Decoder.DecodeSymbolReaches | file_compressor.cpp:45-61 | the bits one decode reads are the path from the root to the leaf of the character it returns |
| Decoder.DecodeSymbolOfPath | file_compressor.cpp:45-61 | when the bits after the index begin with the path to a character's leaf, decode returns that character and advances the index by the path's length |
| Decoder.DecodeWhile | file_compressor.cpp:113-118 | every decoded character is a character of the tree, and an internal root decodes at most one character per bit |
| Decoder.DecodeWhileStep | file_compressor.cpp:116-117 | while the guard holds, one round of the loop emits a character and continues after the bits it read |
| Decoder.DecodeAll | file_compressor.cpp:114-118 | decoding with the corrected guard from index -1 turns the empty string into the empty text, and never yields more characters than bits |
| Decoder.DecodeAllAsWritten | file_compressor.cpp:114-118 | with the guard of line 116, a string of at most one bit decodes to the empty text, and no more characters than bits are ever decoded |
| RoundTrip.CodesArePaths | file_compressor.cpp:31-42 | the code table maps each leaf character to its path of bits |
| RoundTrip.DecodeEncoded | file_compressor.cpp:113-118 | decoding the encoding of a text over the tree's characters, after any consumed prefix, gives the text back |
| RoundTrip.EncodeThenDecode | file_compressor.cpp:106-118 | with an internal root, the corrected loop decodes the encoding of any text over the tree's characters back to that text |
| RoundTrip.EncodeDecoded | file_compressor.cpp:113-118 | a string of bits that decodes completely is the encoding of what it decodes to |
| RoundTrip.DecodeIffEncode | file_compressor.cpp:106-118 | a string of bits decodes to a text exactly when it is that text's encoding |
| RoundTrip.AsWrittenDecode | file_compressor.cpp:116-117 | with the guard of line 116, the loop decodes the whole text except that it drops the last character whenever that character's code is one bit long |
| RoundTrip.AsWrittenSingle | file_compressor.cpp:116-117 | over the code of one character, the loop of line 116 decodes that character only when its code is at least two bits long |
| RoundTrip.AsWrittenWhole | file_compressor.cpp:106-118 | with an internal root, the loop of line 116 run over the encoding of a whole non-empty text returns the text without its last character when that character's code is one bit long, and the whole text otherwise |
| RoundTrip.AsWrittenDropsLastSymbol | file_compressor.cpp:116 | for "ab" the loop of line 116 decodes "a", where the corrected loop decodes "ab" |
| Compressor.DecodeText | file_compressor.cpp:113-118 | the decoding loop with a given guard margin computes what `DecodeWhile` defines, failing when bits run out in the middle of a symbol |
| Compressor.EncodingOfEmptyCodes | file_compressor.cpp:106-109 | when every code is empty, every text encodes to the empty string |
| Compressor.LeafRootRun | file_compressor.cpp:36-41 | with one distinct character, its code is empty and the encoded string is empty |
| Compressor.NodeRootRun | file_compressor.cpp:96-118 | with two or more distinct characters, every code is non-empty; the corrected loop decodes the whole text; the loop of line 116 loses the last character exactly when its code is one bit long |
| Compressor.BuildHuffmanTree | file_compressor.cpp:64-119 | for a non-empty text: a consistent tree over the text's characters weighing its length; the table its walk builds, prefix-free, of paths of bits keyed by those characters; the encoded string is the text's codes concatenated, of length frequency times code length summed, equal to the total merged weight; `decoded` and `decodedAsWritten` are what the corrected loop and the loop of line 116 decode from the encoded string. With two or more distinct characters, `decoded` is the whole text, and `decodedAsWritten` is the text without its last character when that character's code is one bit long and the whole text otherwise; with one distinct character both are empty |

## Left out

- Console input and output (`getline`, every `cout`, `main`, lines 98-103, 111, 115, 122-130). They are I/O. Decoding returns the decoded characters instead of printing them.
- Memory: `Node*` allocation with `new`, and the nodes that are never freed. A datatype value has no counterpart to these.
- The `root == nullptr` branches of `encode` and `decode`. A `Tree` value always has both children or none, so the walks stop at leaves instead of recursing into null children.
- Iteration order of the `unordered_map` at lines 75 and 99. It is unspecified. `BuildTree` pushes the leaves in order of first occurrence (`Frequency.Distinct`). `Builder.AnyLeafOrder` shows that every other order meets the loop invariant, and `Builder.MergeLoop` is proved from that invariant alone. Line 99 only prints.
- Builder.MinIndex: picks the first lightest node. `priority_queue` leaves ties unspecified, so `Builder.MergePreserves` is stated for any two nodes.
- Optimality of the tree, the minimal total encoded length. The code does not state it.
- Bit packing, padding counts, a serialized tree header and corrupt-stream errors. `file_compressor.cpp` has none of them; its encoded string is a `std::string` of '0' and '1'.
- Builder.BuildTree: requires a non-empty text. On an empty text the C++ calls `top` and `pop` on an empty queue (line 82), which is undefined.
- Frequency.FreqTable: counts are unbounded. The C++ `int` counters and `int sum` overflow only for texts of 2^31 or more characters.
- Decoder.DecodeWhile: `index` is unbounded. In the C++, `index` is an `int` (line 114), the guard compares it with `(int)str.size() - 2` (line 116), and `decode` increments it (line 55). Once the encoded string reaches 2^31 bits, the cast or the increment overflows and the loop no longer walks the whole string. With 8-bit codes (256 equally frequent characters), that is a text of 2^28 characters. `RoundTrip.EncodeThenDecode`, `Compressor.NodeRootRun` and `Compressor.BuildHuffmanTree` promise the decoded text for every length, so they hold for the C++ only below that size.
- Decoder.DecodeSymbol: returns None when the bits run out before a leaf is reached. In the C++, reading one past the end gives `str[str.size()]`, which is the defined value `'\0'`, so `decode` goes right. If that right child is a leaf, the C++ outputs its character and stops with `index == str.size()`. Only a further step past that reads out of bounds. The model treats any stream that ends inside a code as a failure. The encoding of a text never ends inside a code, so this does not touch `RoundTrip.EncodeThenDecode`. It does matter for the direction "decodes, so it is an encoding" of `RoundTrip.EncodeDecoded` and `RoundTrip.DecodeIffEncode`: with the corrected guard, the C++ decodes, for example, "1" over `Node(3, Leaf('a', 1), Node(2, Leaf('b', 1), Leaf('c', 1)))` to "c", and "1" is not the encoding of "c", whose code is "11". Both lemmas hold for the model's decoding, not for that C++ path.
- Characters are Dafny `char` values, not C++ bytes. Only equality of characters is used.
- One distinct character. The C++ gives it the empty code, so the encoded string is empty and nothing is decoded. The model states this behaviour (`Compressor.BuildHuffmanTree`, `Compressor.LeafRootRun`) and does not design a replacement, so the round-trip properties require an internal root.

## Findings

| source | as written | input that shows it | evidently intended | confidence | as-written member | corrected member |
|---|---|---|---|---|---|---|
| file_compressor.cpp:116 | the decoding loop runs while `index < str.size() - 2`, so it stops as soon as only one bit is left | text "ab": codes a = "0", b = "1", encoded string "01"; the loop decodes "a" and stops with index 0 | loop while `index < str.size() - 1`, so every bit is read | high; not executed | RoundTrip.AsWrittenDecode, RoundTrip.AsWrittenWhole, RoundTrip.AsWrittenDropsLastSymbol | RoundTrip.EncodeThenDecode, RoundTrip.DecodeIffEncode |

=== FILE: builder.dfy ===
/** Construction of the Huffman tree: one leaf per distinct character goes
    into a min-priority queue ordered by frequency; while more than one node
    is queued, the two lightest are removed and replaced by their parent.

    The queue is a sequence whose order carries no meaning. Taking the top of
    the queue is choosing an element of least frequency; `MinIndex` is one such
    choice. The shape invariants (`MergePreserves`) hold for whichever pair is
    merged, so they do not depend on how the queue breaks ties. */
module Builder {
  import opened Frequency
  import opened Trees

  /** Sum of the frequencies of the queued nodes. */
  function SumFreq(q: seq<Tree>): nat
    decreases |q|
  {
    if |q| == 0 then 0 else SumFreq(q[..|q| - 1]) + q[|q| - 1].freq
  }

  /** The characters held by the leaves of the queued nodes. */
  ghost function AllChars(q: seq<Tree>): set<char> {
    set k, c | 0 <= k < |q| && c in LeafChars(q[k]) :: c
  }

  /** Every queued node is a consistent subtree and no character sits in two
      of them. */
  ghost predicate Forest(q: seq<Tree>, text: string) {
    && (forall k :: 0 <= k < |q| ==> Consistent(q[k], text))
    && (forall k, l :: 0 <= k < |q| && 0 <= l < |q| && k != l ==> LeafChars(q[k]) !! LeafChars(q[l]))
  }

  /** The invariant of the merge loop: the queued subtrees partition the
      characters of `text`, and their frequencies add up to its length. */
  ghost predicate QueueInv(q: seq<Tree>, text: string) {
    && Forest(q, text)
    && AllChars(q) == Chars(text)
    && SumFreq(q) == |text|
  }

  /** `q` with the element at index `i` removed. */
  function RemoveAt(q: seq<Tree>, i: nat): (r: seq<Tree>)
    requires i < |q|
    ensures |r| == |q| - 1
    ensures forall k :: 0 <= k < |r| ==> r[k] == q[if k < i then k else k + 1]
  {
    q[..i] + q[i + 1..]
  }

  /** Index of the first queued node of least frequency: the node the
      priority queue's top returns under this model's tie-break. */
  function MinIndex(q: seq<Tree>): (i: nat)
    requires |q| > 0
    ensures i < |q|
    ensures forall k :: 0 <= k < |q| ==> q[i].freq <= q[k].freq
    ensures forall k :: 0 <= k < i ==> q[k].freq > q[i].freq
    decreases |q|
  {
    if |q| == 1 then 0
    else
      var j := MinIndex(q[1..]) + 1;
      if q[0].freq <= q[j].freq then 0 else j
  }

  /** The queue after merging the node at index `i` with the node at index
      `j` of what remains: both are removed and their parent, weighing their
      sum, is pushed, with the first removed node as its left child. */
  function Merge(q: seq<Tree>, i: nat, j: nat): (r: seq<Tree>)
    requires i < |q| && j < |q| - 1
    ensures |r| == |q| - 1
    ensures r[|r| - 1] == Node(q[i].freq + RemoveAt(q, i)[j].freq, q[i], RemoveAt(q, i)[j])
    ensures multiset(r) + multiset{q[i], RemoveAt(q, i)[j]} == multiset(q) + multiset{r[|r| - 1]}
  {
    var a := q[i];
    var rest := RemoveAt(q, i);
    var b := rest[j];
    var rest2 := RemoveAt(rest, j);
    RemoveAtMultiset(q, i);
    RemoveAtMultiset(rest, j);
    var r := rest2 + [Node(a.freq + b.freq, a, b)];
    assert multiset(r) == multiset(rest2) + multiset{r[|r| - 1]};
    r
  }

  lemma RemoveAtMultiset(q: seq<Tree>, i: nat)
    requires i < |q|
    ensures multiset(q) == multiset(RemoveAt(q, i)) + multiset{q[i]}
  {
    assert q == q[..i] + [q[i]] + q[i + 1..];
  }

  /** The pair the priority queue hands out for one round of the loop: the
      index of a lightest node, then the index of a lightest node among the
      rest. */
  function MinPair(q: seq<Tree>): (p: (nat, nat))
    requires |q| >= 2
    ensures p.0 < |q| && p.1 < |q| - 1
    ensures forall k :: 0 <= k < |q| ==> q[p.0].freq <= q[k].freq
    ensures forall k :: 0 <= k < |q| - 1 ==> RemoveAt(q, p.0)[p.1].freq <= RemoveAt(q, p.0)[k].freq
  {
    var i := MinIndex(q);
    (i, MinIndex(RemoveAt(q, i)))
  }

  /** Each round merges two nodes no heavier than any node left in the
      queue, the lighter one becoming the left child. */
  lemma MinimalMerge(q: seq<Tree>)
    requires |q| >= 2
    ensures var (i, j) := MinPair(q);
            var next := Merge(q, i, j);
            var n := next[|next| - 1];
            && n.left.freq <= n.right.freq
            && forall x :: x in next[..|next| - 1] ==> n.right.freq <= x.freq
  {
    var (i, j) := MinPair(q);
    var rest := RemoveAt(q, i);
    var next := Merge(q, i, j);
    var rest2 := RemoveAt(rest, j);
    assert next[..|next| - 1] == rest2 by { MergeUnfold(q, i, j); }
    forall x | x in rest2
      ensures rest[j].freq <= x.freq
    {
      var m :| 0 <= m < |rest2| && rest2[m] == x;
      assert x == rest[if m < j then m else m + 1];
    }
  }

  /** The queue the loop starts from: one leaf per distinct character,
      weighted by the frequency table. */
  function InitialQueue(text: string): (q: seq<Tree>)
    ensures |q| == |Distinct(text)|
    ensures forall k :: 0 <= k < |q| ==> q[k] == Leaf(Distinct(text)[k], Count(text, Distinct(text)[k]))
  {
    LeafQueue(Distinct(text), FreqTable(text))
  }

  function LeafQueue(d: seq<char>, m: map<char, nat>): (q: seq<Tree>)
    requires forall c :: c in d ==> c in m
    ensures |q| == |d|
    ensures forall k :: 0 <= k < |d| ==> q[k] == Leaf(d[k], m[d[k]])
    decreases |d|
  {
    if |d| == 0 then []
    else LeafQueue(d[..|d| - 1], m) + [Leaf(d[|d| - 1], m[d[|d| - 1]])]
  }

  lemma {:induction false} LeafQueueSum(d: seq<char>, text: string)
    requires forall c :: c in d ==> c in text
    ensures SumFreq(LeafQueue(d, FreqTable(text))) == SumCounts(d, text)
    decreases |d|
  {
    if |d| > 0 {
      var q := LeafQueue(d, FreqTable(text));
      LeafQueueSum(d[..|d| - 1], text);
      assert q[..|q| - 1] == LeafQueue(d[..|d| - 1], FreqTable(text));
    }
  }

  /** The loop invariant holds on entry. */
  lemma InitialQueueInv(text: string)
    ensures QueueInv(InitialQueue(text), text)
  {
    InitialForest(text);
    InitialChars(text);
    LeafQueueSum(Distinct(text), text);
    CountsSumToLength(text);
  }

  lemma InitialForest(text: string)
    ensures Forest(InitialQueue(text), text)
  {
    var d := Distinct(text);
    var q := InitialQueue(text);
    forall k | 0 <= k < |q|
      ensures Consistent(q[k], text)
    {
      assert d[k] in text;
      assert d[k] in multiset(text);
    }
    forall k, l | 0 <= k < |q| && 0 <= l < |q| && k != l
      ensures LeafChars(q[k]) !! LeafChars(q[l])
    {
      assert LeafChars(q[k]) == {d[k]};
      assert LeafChars(q[l]) == {d[l]};
    }
  }

  lemma InitialChars(text: string)
    ensures AllChars(InitialQueue(text)) == Chars(text)
  {
    var d := Distinct(text);
    var q := InitialQueue(text);
    forall c | c in Chars(text)
      ensures c in AllChars(q)
    {
      var k :| 0 <= k < |d| && d[k] == c;
      assert c in LeafChars(q[k]);
    }
    forall c | c in AllChars(q)
      ensures c in Chars(text)
    {
      var k :| 0 <= k < |q| && c in LeafChars(q[k]);
      assert c == d[k];
    }
  }

  lemma {:induction false} SumFreqAppend(a: seq<Tree>, b: seq<Tree>)
    ensures SumFreq(a + b) == SumFreq(a) + SumFreq(b)
    decreases |b|
  {
    if |b| == 0 {
      assert a + b == a;
    } else {
      var b' := b[..|b| - 1];
      assert (a + b)[..|a + b| - 1] == a + b';
      SumFreqAppend(a, b');
    }
  }

  lemma RemoveAtForest(q: seq<Tree>, i: nat, text: string)
    requires i < |q|
    requires Forest(q, text)
    ensures Forest(RemoveAt(q, i), text)
  {
    var r := RemoveAt(q, i);
    forall k, l | 0 <= k < |r| && 0 <= l < |r| && k != l
      ensures LeafChars(r[k]) !! LeafChars(r[l])
    {
      var k' := if k < i then k else k + 1;
      var l' := if l < i then l else l + 1;
      assert LeafChars(q[k']) !! LeafChars(q[l']);
    }
  }

  lemma RemoveAtChars(q: seq<Tree>, i: nat, text: string)
    requires i < |q|
    requires Forest(q, text)
    ensures AllChars(RemoveAt(q, i)) + LeafChars(q[i]) == AllChars(q)
    ensures AllChars(RemoveAt(q, i)) !! LeafChars(q[i])
  {
    var r := RemoveAt(q, i);
    forall c | c in AllChars(q)
      ensures c in AllChars(r) + LeafChars(q[i])
    {
      var k :| 0 <= k < |q| && c in LeafChars(q[k]);
      if k < i {
        assert c in LeafChars(r[k]);
      } else if k > i {
        assert c in LeafChars(r[k - 1]);
      }
    }
    forall c | c in AllChars(r)
      ensures c in AllChars(q) && c !in LeafChars(q[i])
    {
      var k :| 0 <= k < |r| && c in LeafChars(r[k]);
      var k' := if k < i then k else k + 1;
      assert c in LeafChars(q[k']);
      assert LeafChars(q[k']) !! LeafChars(q[i]);
    }
    assert LeafChars(q[i]) <= AllChars(q) by {
      forall c | c in LeafChars(q[i]) ensures c in AllChars(q) { }
    }
  }

  lemma RemoveAtSum(q: seq<Tree>, i: nat)
    requires i < |q|
    ensures SumFreq(RemoveAt(q, i)) + q[i].freq == SumFreq(q)
  {
    SplitAt(q, i);
    SumFreqAppend(q[..i], [q[i]] + q[i + 1..]);
    SumFreqAppend([q[i]], q[i + 1..]);
    SumFreqAppend(q[..i], q[i + 1..]);
    SumFreqSingle(q[i]);
  }

  lemma SplitAt<T>(q: seq<T>, i: nat)
    requires i < |q|
    ensures q == q[..i] + ([q[i]] + q[i + 1..])
  {
  }

  lemma SumFreqSingle(n: Tree)
    ensures SumFreq([n]) == n.freq
  {
    assert [n][..0] == [];
  }

  /** Pushing a consistent node whose characters are not yet queued keeps the
      forest, and adds its characters and its frequency. */
  lemma PushFacts(q: seq<Tree>, n: Tree, text: string)
    requires Forest(q, text)
    requires Consistent(n, text)
    requires LeafChars(n) !! AllChars(q)
    ensures Forest(q + [n], text)
    ensures AllChars(q + [n]) == AllChars(q) + LeafChars(n)
    ensures SumFreq(q + [n]) == SumFreq(q) + n.freq
  {
    var r := q + [n];
    assert r[..|r| - 1] == q;
    forall k | 0 <= k < |q|
      ensures LeafChars(r[k]) !! LeafChars(n)
    {
      assert forall c :: c in LeafChars(q[k]) ==> c in AllChars(q);
    }
    forall c | c in AllChars(r)
      ensures c in AllChars(q) + LeafChars(n)
    {
      var k :| 0 <= k < |r| && c in LeafChars(r[k]);
      if k < |q| {
        assert c in LeafChars(q[k]);
      }
    }
    forall c | c in LeafChars(n)
      ensures c in AllChars(r)
    {
      assert c in LeafChars(r[|q|]);
    }
  }

  /** Merging ANY two queued nodes keeps the loop invariant: the invariants of
      the tree do not depend on which of several equally light nodes the
      queue hands out. */
  lemma MergePreserves(q: seq<Tree>, i: nat, j: nat, text: string)
    requires i < |q| && j < |q| - 1
    requires QueueInv(q, text)
    ensures QueueInv(Merge(q, i, j), text)
    ensures |Merge(q, i, j)| == |q| - 1
  {
    MergeForest(q, i, j, text);
    MergeChars(q, i, j, text);
    MergeSum(q, i, j);
  }

  lemma MergeForest(q: seq<Tree>, i: nat, j: nat, text: string)
    requires i < |q| && j < |q| - 1
    requires Forest(q, text)
    ensures Forest(Merge(q, i, j), text)
    ensures AllChars(Merge(q, i, j)) == AllChars(RemoveAt(RemoveAt(q, i), j)) + LeafChars(q[i]) + LeafChars(RemoveAt(q, i)[j])
  {
    var a := q[i];
    var rest := RemoveAt(q, i);
    var b := rest[j];
    var rest2 := RemoveAt(rest, j);
    RemoveAtForest(q, i, text);
    RemoveAtChars(q, i, text);
    RemoveAtForest(rest, j, text);
    RemoveAtChars(rest, j, text);
    assert LeafChars(b) <= AllChars(rest) by {
      assert forall c :: c in LeafChars(rest[j]) ==> c in AllChars(rest);
    }
    var n := Node(a.freq + b.freq, a, b);
    assert Consistent(n, text);
    PushFacts(rest2, n, text);
    MergeUnfold(q, i, j);
  }

  lemma MergeChars(q: seq<Tree>, i: nat, j: nat, text: string)
    requires i < |q| && j < |q| - 1
    requires Forest(q, text)
    ensures AllChars(Merge(q, i, j)) == AllChars(q)
  {
    var rest := RemoveAt(q, i);
    MergeForest(q, i, j, text);
    RemoveAtForest(q, i, text);
    RemoveAtChars(q, i, text);
    RemoveAtChars(rest, j, text);
  }

  lemma MergeSum(q: seq<Tree>, i: nat, j: nat)
    requires i < |q| && j < |q| - 1
    ensures SumFreq(Merge(q, i, j)) == SumFreq(q)
  {
    var rest := RemoveAt(q, i);
    MergeSumPushed(q, i, j);
    RemoveAtSum(q, i);
    RemoveAtSum(rest, j);
  }

  lemma MergeSumPushed(q: seq<Tree>, i: nat, j: nat)
    requires i < |q| && j < |q| - 1
    ensures var rest := RemoveAt(q, i);
      SumFreq(Merge(q, i, j)) == SumFreq(RemoveAt(rest, j)) + q[i].freq + rest[j].freq
  {
    var rest := RemoveAt(q, i);
    SumFreqPush(RemoveAt(rest, j), Node(q[i].freq + rest[j].freq, q[i], rest[j]));
    MergeUnfold(q, i, j);
  }

  lemma SumFreqPush(q: seq<Tree>, n: Tree)
    ensures SumFreq(q + [n]) == SumFreq(q) + n.freq
  {
    assert (q + [n])[..|q|] == q;
  }

  lemma MergeUnfold(q: seq<Tree>, i: nat, j: nat)
    requires i < |q| && j < |q| - 1
    ensures var rest := RemoveAt(q, i);
      Merge(q, i, j) == RemoveAt(rest, j) + [Node(q[i].freq + rest[j].freq, q[i], rest[j])]
  {
  }

  /** Building the tree from a text: the leaves of the frequency table are
      queued, then merged. An empty text leaves the queue empty and the coder
      pops from it, so the text must not be empty. The root's leaves are
      exactly the characters of the text, each once, and it weighs the length
      of the text; there is one round fewer than distinct characters. */
  method BuildTree(text: string) returns (root: Tree, merges: nat)
    requires |text| > 0
    ensures Consistent(root, text)
    ensures LeafChars(root) == Chars(text)
    ensures root.freq == |text|
    ensures merges + 1 == |Distinct(text)|
    ensures LeafCount(root) == |Chars(text)| && InternalCount(root) == merges
  {
    var q := InitialQueue(text);
    InitialQueueInv(text);
    assert text[0] in Distinct(text);
    root, merges := MergeLoop(q, text);
    RootCounts(root, text, merges);
  }

  /** The merge loop: while more than one node is queued, the two lightest
      are replaced by their parent. It needs only the invariant of the queue,
      not the order of its nodes, so it is stated for every queue that meets
      the invariant (see `AnyLeafOrder`). Each round removes two nodes and
      adds one, so there are one fewer rounds than queued nodes. */
  method MergeLoop(start: seq<Tree>, text: string) returns (root: Tree, merges: nat)
    requires QueueInv(start, text) && |start| >= 1
    ensures Consistent(root, text)
    ensures LeafChars(root) == Chars(text)
    ensures root.freq == |text|
    ensures merges + 1 == |start|
  {
    var q := start;
    merges := 0;
    while |q| != 1
      invariant QueueInv(q, text)
      invariant |q| >= 1
      invariant merges + |q| == |start|
      decreases |q|
    {
      var (i, j) := MinPair(q);
      MergePreserves(q, i, j, text);
      q := Merge(q, i, j);
      merges := merges + 1;
    }
    root := q[0];
    LastNode(q, text);
  }

  /** The coder reads the leaves out of an unordered map, in an unspecified
      order. Every order of the leaves meets the loop invariant. */
  lemma AnyLeafOrder(q: seq<Tree>, text: string)
    requires multiset(q) == multiset(InitialQueue(text))
    ensures QueueInv(q, text)
  {
    InitialQueueInv(text);
    QueueInvPermuted(InitialQueue(text), q, text);
  }

  /** The loop invariant depends only on which nodes are queued. */
  lemma QueueInvPermuted(q: seq<Tree>, q': seq<Tree>, text: string)
    requires QueueInv(q, text) && multiset(q) == multiset(q')
    ensures QueueInv(q', text)
  {
    PermutedForest(q, q', text);
    PermutedChars(q, q');
    PermutedSum(q, q');
  }

  lemma PermutedForest(q: seq<Tree>, q': seq<Tree>, text: string)
    requires Forest(q, text) && multiset(q) == multiset(q')
    ensures Forest(q', text)
  {
    forall k | 0 <= k < |q'|
      ensures Consistent(q'[k], text)
    {
      assert q'[k] in multiset(q);
    }
    forall k, l | 0 <= k < |q'| && 0 <= l < |q'| && k != l
      ensures LeafChars(q'[k]) !! LeafChars(q'[l])
    {
      assert q'[k] in multiset(q) && q'[l] in multiset(q);
      var a :| 0 <= a < |q| && q[a] == q'[k];
      var b :| 0 <= b < |q| && q[b] == q'[l];
      if a == b {
        ForestSingle(q, text, a);
        if k < l {
          CountTwo(q', k, l);
        } else {
          CountTwo(q', l, k);
        }
        assert false;
      }
    }
  }

  /** In a forest every node occurs once: distinct positions hold disjoint,
      non-empty sets of characters. */
  lemma ForestSingle(q: seq<Tree>, text: string, a: nat)
    requires Forest(q, text) && a < |q|
    ensures multiset(q)[q[a]] == 1
  {
    forall b | 0 <= b < |q| && b != a
      ensures q[b] != q[a]
    {
      LeafCharsNonEmpty(q[a]);
      assert LeafChars(q[a]) !! LeafChars(q[b]);
    }
    assert q[a] !in q[..a];
    assert q[a] !in q[a + 1..];
    assert q == q[..a] + [q[a]] + q[a + 1..];
  }

  lemma CountTwo(q: seq<Tree>, k: nat, l: nat)
    requires k < l < |q| && q[k] == q[l]
    ensures multiset(q)[q[k]] >= 2
  {
    assert q[k] in q[..l];
    assert q == q[..l] + [q[l]] + q[l + 1..];
  }

  lemma PermutedChars(q: seq<Tree>, q': seq<Tree>)
    requires multiset(q) == multiset(q')
    ensures AllChars(q') == AllChars(q)
  {
    forall c | c in AllChars(q')
      ensures c in AllChars(q)
    {
      var k :| 0 <= k < |q'| && c in LeafChars(q'[k]);
      assert q'[k] in multiset(q);
      var a :| 0 <= a < |q| && q[a] == q'[k];
    }
    forall c | c in AllChars(q)
      ensures c in AllChars(q')
    {
      var a :| 0 <= a < |q| && c in LeafChars(q[a]);
      assert q[a] in multiset(q');
      var k :| 0 <= k < |q'| && q'[k] == q[a];
    }
  }

  lemma {:induction false} PermutedSum(q: seq<Tree>, q': seq<Tree>)
    requires multiset(q) == multiset(q')
    ensures SumFreq(q') == SumFreq(q)
    decreases |q|
  {
    if |q| == 0 {
      assert |q'| == |multiset(q')| == 0;
    } else {
      var init := q[..|q| - 1];
      var x := q[|q| - 1];
      assert q == init + [x];
      assert x in multiset(q');
      var p :| 0 <= p < |q'| && q'[p] == x;
      RemoveAtMultiset(q', p);
      RemoveAtSum(q', p);
      assert multiset(q) == multiset(init) + multiset{x};
      assert multiset(init) == multiset(RemoveAt(q', p)) by {
        assert multiset(init) == multiset(q) - multiset{x};
        assert multiset(RemoveAt(q', p)) == multiset(q') - multiset{x};
      }
      PermutedSum(init, RemoveAt(q', p));
    }
  }

  /** When one node is left, it carries the whole invariant on its own. */
  lemma LastNode(q: seq<Tree>, text: string)
    requires QueueInv(q, text) && |q| == 1
    ensures Consistent(q[0], text) && LeafChars(q[0]) == Chars(text) && q[0].freq == |text|
  {
    assert AllChars(q) == LeafChars(q[0]) by {
      forall c | c in LeafChars(q[0]) ensures c in AllChars(q) { }
    }
    assert SumFreq(q) == q[0].freq by {
      assert q[..0] == [];
    }
  }

  /** The root holds one leaf per distinct character and one internal node
      per merge. */
  lemma RootCounts(root: Tree, text: string, merges: nat)
    requires Consistent(root, text) && LeafChars(root) == Chars(text)
    requires merges + 1 == |Distinct(text)|
    ensures LeafCount(root) == |Chars(text)| && InternalCount(root) == merges
  {
    ConsistentFacts(root, text);
    LeafCountIsCharCount(root);
    InternalIsLeavesMinusOne(root);
    DistinctCountsChars(text);
  }
}

=== FILE: codes.dfy ===
/** The code table and the encoded string. A code is the path from the root
    to a leaf, written as a string of '0' (left) and '1' (right); the encoded
    string is the concatenation of the codes of the characters of the text. */
module CodeTable {
  import opened Frequency
  import opened Trees

  /** Every character of `s` is '0' or '1'. */
  ghost predicate IsBits(s: string) {
    forall i :: 0 <= i < |s| ==> s[i] == '0' || s[i] == '1'
  }

  /** The depth-first walk that fills the code table: a leaf is given the
      path that led to it, then the walk descends left with '0' appended and
      right with '1' appended. An entry made in the right subtree replaces one
      made for the same character in the left subtree, as a later assignment
      to the same key of the coder's map does. */
  function Codes(t: Tree, prefix: string): (m: map<char, string>)
    ensures m.Keys == LeafChars(t)
    ensures forall c :: c in m ==> prefix <= m[c]
    decreases t
  {
    match t
    case Leaf(c, _) => map[c := prefix]
    case Node(_, l, r) => Codes(l, prefix + "0") + Codes(r, prefix + "1")
  }

  /** The entry of each character is the path from the root to its leaf,
      after the prefix; below an internal node the path is never empty. */
  lemma {:induction false} CodeIsPath(t: Tree, prefix: string, c: char)
    requires c in LeafChars(t)
    ensures ReachesLeaf(t, Codes(t, prefix)[c][|prefix|..], c)
    ensures t.Node? ==> |Codes(t, prefix)[c]| > |prefix|
    decreases t
  {
    var code := Codes(t, prefix)[c];
    match t
    case Leaf(_, _) =>
      assert code == prefix;
      assert code[|prefix|..] == [];
    case Node(_, l, r) =>
      var bits := code[|prefix|..];
      if c in LeafChars(r) {
        var p' := prefix + "1";
        assert code == Codes(r, p')[c];
        CodeIsPath(r, p', c);
        assert bits[0] == '1' && bits[1..] == code[|p'|..];
      } else {
        var p' := prefix + "0";
        assert code == Codes(l, p')[c];
        CodeIsPath(l, p', c);
        assert bits[0] == '0' && bits[1..] == code[|p'|..];
      }
  }

  /** Every entry is made of '0' and '1' when the prefix is. */
  lemma {:induction false} CodeIsBits(t: Tree, prefix: string, c: char)
    requires c in LeafChars(t)
    requires IsBits(prefix)
    ensures IsBits(Codes(t, prefix)[c])
    decreases t
  {
    match t
    case Leaf(_, _) =>
    case Node(_, l, r) =>
      if c in LeafChars(r) {
        BitsAppend(prefix, '1');
        CodeIsBits(r, prefix + "1", c);
      } else {
        BitsAppend(prefix, '0');
        CodeIsBits(l, prefix + "0", c);
      }
  }

  lemma BitsAppend(p: string, b: char)
    requires IsBits(p) && (b == '0' || b == '1')
    ensures IsBits(p + [b])
  {
  }

  /** No code is a prefix of the code of another character. */
  ghost predicate PrefixFree(m: map<char, string>) {
    forall c, d :: c in m && d in m && c != d ==> !(m[c] <= m[d])
  }

  /** Walking a path reaches a leaf labelled `c` only if `c` is in the tree. */
  lemma {:induction false} ReachedLeafInTree(t: Tree, p: string, c: char)
    requires ReachesLeaf(t, p, c)
    ensures c in LeafChars(t)
    decreases |p|
  {
    if |p| > 0 {
      match t
      case Leaf(_, _) =>
      case Node(_, l, r) =>
        ReachedLeafInTree(if p[0] == '0' then l else r, p[1..], c);
    }
  }

  /** In a tree with distinct leaves, there is one path of bits to each
      character. */
  lemma {:induction false} PathUnique(t: Tree, p: string, p': string, c: char)
    requires DistinctLeaves(t)
    requires IsBits(p) && IsBits(p')
    requires ReachesLeaf(t, p, c) && ReachesLeaf(t, p', c)
    ensures p == p'
    decreases |p|
  {
    match t
    case Leaf(_, _) =>
    case Node(_, l, r) =>
      var u := if p[0] == '0' then l else r;
      var u' := if p'[0] == '0' then l else r;
      ReachedLeafInTree(u, p[1..], c);
      ReachedLeafInTree(u', p'[1..], c);
      assert (p[0] == '0') == (p'[0] == '0');
      PathUnique(u, p[1..], p'[1..], c);
      assert p == [p[0]] + p[1..] && p' == [p'[0]] + p'[1..];
  }

  /** The codes are prefix-free: no leaf lies on the path to another leaf. */
  lemma CodesArePrefixFree(t: Tree)
    ensures PrefixFree(Codes(t, ""))
  {
    var m := Codes(t, "");
    forall c, d | c in m && d in m && m[c] <= m[d]
      ensures c == d
    {
      CodeIsPath(t, "", c);
      CodeIsPath(t, "", d);
      assert m[c][0..] == m[c] && m[d][0..] == m[d];
      var rest := m[d][|m[c]|..];
      assert m[d] == m[c] + rest;
      FollowAppend(t, m[c], rest);
    }
  }

  /** The code of `c`; a character without an entry gets the empty code, as
      reading a missing key of the coder's map inserts an empty string. */
  function Lookup(codes: map<char, string>, c: char): string {
    if c in codes then codes[c] else ""
  }

  /** The codes of the characters of `text`, in order, concatenated. */
  function Encoding(codes: map<char, string>, text: string): (r: string)
    ensures (forall c :: c in codes ==> IsBits(codes[c])) ==> IsBits(r)
    decreases |text|
  {
    if |text| == 0 then "" else Lookup(codes, text[0]) + Encoding(codes, text[1..])
  }

  lemma {:induction false} EncodingSnoc(codes: map<char, string>, text: string, c: char)
    ensures Encoding(codes, text + [c]) == Encoding(codes, text) + Lookup(codes, c)
    decreases |text|
  {
    if |text| == 0 {
      assert text + [c] == [c];
      assert [c][1..] == [];
    } else {
      assert (text + [c])[0] == text[0];
      assert (text + [c])[1..] == text[1..] + [c];
      EncodingSnoc(codes, text[1..], c);
    }
  }

  /** Encoding `[c] + s` is the code of `c` followed by the encoding of `s`. */
  lemma EncodingCons(codes: map<char, string>, c: char, s: string)
    ensures Encoding(codes, [c] + s) == Lookup(codes, c) + Encoding(codes, s)
  {
    assert ([c] + s)[0] == c && ([c] + s)[1..] == s;
  }

  /** The encoding of a concatenation is the concatenation of the encodings. */
  lemma {:induction false} EncodingAppend(codes: map<char, string>, a: string, b: string)
    ensures Encoding(codes, a + b) == Encoding(codes, a) + Encoding(codes, b)
    decreases |a|
  {
    if |a| == 0 {
      assert a + b == b;
    } else {
      assert (a + b)[0] == a[0] && (a + b)[1..] == a[1..] + b;
      EncodingAppend(codes, a[1..], b);
    }
  }

  /** A character the table has no entry for contributes nothing to the
      encoding: reading it inserts, and appends, the empty code. */
  lemma EncodingWithoutCode(codes: map<char, string>, a: string, c: char, b: string)
    requires c !in codes
    ensures Encoding(codes, a + [c] + b) == Encoding(codes, a + b)
  {
    EncodingAppend(codes, a + [c], b);
    EncodingSnoc(codes, a, c);
    EncodingAppend(codes, a, b);
  }

  /** The encoding loop: one scan of the text that appends the code of each
      character read to the encoded string. */
  method EncodeText(codes: map<char, string>, text: string) returns (str: string)
    ensures str == Encoding(codes, text)
  {
    str := "";
    var i := 0;
    while i < |text|
      invariant 0 <= i <= |text|
      invariant str == Encoding(codes, text[..i])
    {
      EncodingSnoc(codes, text[..i], text[i]);
      assert text[..i + 1] == text[..i] + [text[i]];
      str := str + Lookup(codes, text[i]);
      i := i + 1;
    }
    assert text[..|text|] == text;
  }

  /** Sum, over the characters listed in `d`, of each one's count in `text`
      times the length of its code. */
  function WeightedSum(codes: map<char, string>, d: seq<char>, text: string): nat
    decreases |d|
  {
    if |d| == 0 then 0
    else WeightedSum(codes, d[..|d| - 1], text) + Count(text, d[|d| - 1]) * |Lookup(codes, d[|d| - 1])|
  }

  lemma {:induction false} WeightedSumSnoc(codes: map<char, string>, d: seq<char>, text: string, c: char)
    requires forall i, j :: 0 <= i < j < |d| ==> d[i] != d[j]
    ensures WeightedSum(codes, d, text + [c]) ==
      WeightedSum(codes, d, text) + (if c in d then |Lookup(codes, c)| else 0)
    decreases |d|
  {
    if |d| > 0 {
      var init := d[..|d| - 1];
      var x := d[|d| - 1];
      assert d == init + [x];
      assert x !in init;
      WeightedSumSnoc(codes, init, text, c);
      CountSnoc(text, c, x);
      MulStep(Count(text, x), |Lookup(codes, x)|, x == c);
    }
  }

  /** Reading one more character adds one to its count and to no other. */
  lemma CountSnoc(text: string, c: char, x: char)
    ensures Count(text + [c], x) == Count(text, x) + (if x == c then 1 else 0)
  {
    assert multiset(text + [c]) == multiset(text) + multiset{c};
  }

  lemma MulStep(k: nat, n: nat, b: bool)
    ensures (k + (if b then 1 else 0)) * n == k * n + (if b then n else 0)
  {
  }

  /** The encoded string is as long as the sum, over the distinct characters
      of the text, of frequency times code length. */
  lemma {:induction false} EncodingLength(codes: map<char, string>, text: string)
    ensures |Encoding(codes, text)| == WeightedSum(codes, Distinct(text), text)
    decreases |text|
  {
    if |text| > 0 {
      var init := text[..|text| - 1];
      var c := text[|text| - 1];
      assert text == init + [c];
      EncodingLength(codes, init);
      EncodingSnoc(codes, init, c);
      WeightedSumStep(codes, init, c);
    }
  }

  /** One more character read adds the length of its code to the sum. */
  lemma WeightedSumStep(codes: map<char, string>, init: string, c: char)
    ensures WeightedSum(codes, Distinct(init + [c]), init + [c]) ==
      WeightedSum(codes, Distinct(init), init) + |Lookup(codes, c)|
  {
    var text := init + [c];
    var d := Distinct(init);
    assert text[..|text| - 1] == init && text[|text| - 1] == c;
    if c in d {
      assert Distinct(text) == d;
      WeightedSumSnoc(codes, d, init, c);
    } else {
      assert Distinct(text) == d + [c];
      WeightedSumNew(codes, d, init, c);
    }
  }

  /** The same step when the character is read for the first time. */
  lemma WeightedSumNew(codes: map<char, string>, d: seq<char>, init: string, c: char)
    requires c !in d && c !in init
    ensures WeightedSum(codes, d + [c], init + [c]) == WeightedSum(codes, d, init) + |Lookup(codes, c)|
  {
    WeightedSumOther(codes, d, init, c);
    WeightedSumPush(codes, d, c, init + [c]);
    assert Count(init + [c], c) == 1 by {
      assert multiset(init)[c] == 0;
      CountSnoc(init, c, c);
    }
  }

  /** Reading a character that is not listed leaves the sum unchanged. */
  lemma {:induction false} WeightedSumOther(codes: map<char, string>, d: seq<char>, text: string, c: char)
    requires c !in d
    ensures WeightedSum(codes, d, text + [c]) == WeightedSum(codes, d, text)
    decreases |d|
  {
    if |d| > 0 {
      var x := d[|d| - 1];
      assert x in d;
      WeightedSumOther(codes, d[..|d| - 1], text, c);
      CountSnoc(text, c, x);
    }
  }

  lemma WeightedSumPush(codes: map<char, string>, d: seq<char>, x: char, text: string)
    ensures WeightedSum(codes, d + [x], text) == WeightedSum(codes, d, text) + Count(text, x) * |Lookup(codes, x)|
  {
    assert (d + [x])[..|d|] == d;
  }

  /** Over the leaves of `t`, the sum of each character's count in `text`
      times the leaf's depth, the root lying at `depth`: the sum over the
      characters of frequency times code length. */
  function WeightedDepth(t: Tree, text: string, depth: nat): nat
    decreases t
  {
    match t
    case Leaf(c, _) => Count(text, c) * depth
    case Node(_, l, r) => WeightedDepth(l, text, depth + 1) + WeightedDepth(r, text, depth + 1)
  }

  lemma {:induction false} WeightedDepthOther(t: Tree, c: char, s: string, depth: nat)
    requires c !in LeafChars(t)
    ensures WeightedDepth(t, [c] + s, depth) == WeightedDepth(t, s, depth)
    decreases t
  {
    match t
    case Leaf(x, _) =>
      assert multiset([c] + s)[x] == multiset(s)[x];
    case Node(_, l, r) =>
      WeightedDepthOther(l, c, s, depth + 1);
      WeightedDepthOther(r, c, s, depth + 1);
  }

  /** One more occurrence of `c` costs the length of its code. */
  lemma {:induction false} WeightedDepthCons(t: Tree, c: char, s: string, prefix: string)
    requires DistinctLeaves(t)
    requires c in LeafChars(t)
    ensures WeightedDepth(t, [c] + s, |prefix|) == WeightedDepth(t, s, |prefix|) + |Codes(t, prefix)[c]|
    decreases t
  {
    match t
    case Leaf(x, _) =>
      assert multiset([c] + s) == multiset(s) + multiset{c};
      MulStep(Count(s, x), |prefix|, true);
    case Node(_, l, r) =>
      if c in LeafChars(r) {
        var p' := prefix + "1";
        assert Codes(t, prefix)[c] == Codes(r, p')[c];
        WeightedDepthCons(r, c, s, p');
        WeightedDepthOther(l, c, s, |p'|);
      } else {
        var p' := prefix + "0";
        assert Codes(t, prefix)[c] == Codes(l, p')[c];
        WeightedDepthCons(l, c, s, p');
        WeightedDepthOther(r, c, s, |p'|);
      }
  }

  /** The encoded string is as long as the sum over the characters of the
      text of frequency times code length. */
  lemma {:induction false} EncodedLength(t: Tree, text: string)
    requires DistinctLeaves(t)
    requires Chars(text) <= LeafChars(t)
    ensures |Encoding(Codes(t, ""), text)| == WeightedDepth(t, text, 0)
    decreases |text|
  {
    if |text| == 0 {
      WeightedDepthEmpty(t, text, 0);
    } else {
      var c := text[0];
      assert c in Chars(text);
      assert Chars(text[1..]) <= Chars(text) by {
        forall x | x in Chars(text[1..]) ensures x in text { }
      }
      EncodedLength(t, text[1..]);
      assert text == [c] + text[1..];
      WeightedDepthCons(t, c, text[1..], "");
    }
  }

  lemma {:induction false} WeightedDepthEmpty(t: Tree, text: string, depth: nat)
    requires |text| == 0
    ensures WeightedDepth(t, text, depth) == 0
    decreases t
  {
    match t
    case Leaf(_, _) =>
    case Node(_, l, r) =>
      WeightedDepthEmpty(l, text, depth + 1);
      WeightedDepthEmpty(r, text, depth + 1);
  }

  /** For a tree built from `text`, frequency times code length summed over
      the characters equals the total weight of the internal nodes, that is
      the sum of the frequencies of all merged nodes. */
  lemma {:induction false} WeightedDepthIsCost(t: Tree, text: string, depth: nat)
    requires Consistent(t, text)
    ensures WeightedDepth(t, text, depth) == Cost(t) + depth * t.freq
    decreases t
  {
    match t
    case Leaf(_, _) =>
    case Node(f, l, r) =>
      WeightedDepthIsCost(l, text, depth + 1);
      WeightedDepthIsCost(r, text, depth + 1);
      Distribute(depth, l.freq, r.freq);
  }

  lemma Distribute(d: nat, a: nat, b: nat)
    ensures (d + 1) * a + (d + 1) * b == d * (a + b) + a + b
  {
  }
}

=== FILE: compressor.dfy ===
/** The driver of the coder: count, build the tree, derive the codes, encode
    the text and decode the encoded string again, as one call of
    buildHuffmanTree in file_compressor.cpp does. Printing is replaced by
    returning the values printed. */
module Compressor {
  import opened Wrappers
  import opened Frequency
  import opened Trees
  import opened Builder
  import opened CodeTable
  import opened Decoder
  import opened RoundTrip

  /** `out` followed by the decoded rest, or failure if the rest failed. */
  function Join(out: string, rest: Option<string>): Option<string> {
    if rest.Some? then Some(out + rest.value) else None
  }

  lemma JoinPrepend(out: string, c: char, rest: Option<string>)
    ensures Join(out, Prepend(c, rest)) == Join(out + [c], rest)
  {
    if rest.Some? {
      assert out + ([c] + rest.value) == (out + [c]) + rest.value;
    }
  }

  /** The decoding loop: starting before the first bit, decode one symbol at
      a time while `index < |str| - margin`. With margin 1 this is the
      corrected loop; with margin 2 it is the loop of line 116. It stops with
      None when the bits run out in the middle of a symbol. */
  method DecodeText(t: Tree, str: string, margin: nat) returns (decoded: Option<string>)
    requires t.Node? || |str| < margin
    ensures decoded == DecodeWhile(t, -1, str, margin)
  {
    var index := -1;
    var out := "";
    assert forall s: string :: out + s == s;
    while index < |str| - margin
      invariant -1 <= index < |str|
      invariant t.Node? || index >= |str| - margin
      invariant DecodeWhile(t, -1, str, margin) == Join(out, DecodeWhile(t, index, str, margin))
      decreases |str| - index
    {
      match DecodeSymbol(t, index, str)
      case None =>
        return None;
      case Some((c, next)) =>
        DecodeWhileStep(t, index, str, margin, c, next);
        JoinPrepend(out, c, DecodeWhile(t, next, str, margin));
        out := out + [c];
        index := next;
    }
    assert out + [] == out;
    decoded := Some(out);
  }

  /** With every code empty, every text encodes to the empty string. */
  lemma {:induction false} EncodingOfEmptyCodes(m: map<char, string>, text: string)
    requires forall c :: c in m ==> m[c] == ""
    ensures Encoding(m, text) == ""
    decreases |text|
  {
    if |text| > 0 {
      EncodingOfEmptyCodes(m, text[1..]);
    }
  }

  /** One run of the coder on a non-empty text. Returns the tree, the code
      table, the encoded string, the decoding by the corrected loop and the
      decoding by the loop as written at line 116. */
  method BuildHuffmanTree(text: string)
      returns (root: Tree, codes: map<char, string>, encoded: string, decoded: Option<string>, decodedAsWritten: Option<string>)
    requires |text| > 0
    ensures Consistent(root, text) && LeafChars(root) == Chars(text) && root.freq == |text|
    ensures codes == Codes(root, "") && codes.Keys == Chars(text)
    ensures PrefixFree(codes)
    ensures forall c :: c in codes ==> ReachesLeaf(root, codes[c], c) && IsBits(codes[c])
    ensures encoded == Encoding(codes, text) && IsBits(encoded)
    ensures root.Node? || encoded == ""
    ensures decoded == DecodeWhile(root, -1, encoded, 1)
    ensures decodedAsWritten == DecodeWhile(root, -1, encoded, 2)
    ensures |encoded| == WeightedSum(codes, Distinct(text), text) == WeightedDepth(root, text, 0) == Cost(root)
    ensures |Chars(text)| >= 2 ==>
      && root.Node?
      && (forall c :: c in codes ==> |codes[c]| > 0)
      && decoded == Some(text)
      && decodedAsWritten == (if |codes[text[|text| - 1]]| == 1 then Some(text[..|text| - 1]) else Some(text))
    ensures |Chars(text)| == 1 ==>
      && root.Leaf?
      && codes == map[text[0] := ""]
      && encoded == ""
      && decoded == Some("")
      && decodedAsWritten == Some("")
  {
    var merges;
    root, merges := BuildTree(text);
    ConsistentFacts(root, text);
    SingleLeafIffOneChar(root);
    codes := Codes(root, "");
    CodesArePaths(root);
    CodesArePrefixFree(root);
    encoded := EncodeText(codes, text);
    assert |encoded| == WeightedSum(codes, Distinct(text), text) == WeightedDepth(root, text, 0) == Cost(root) by {
      EncodingLength(codes, text);
      EncodedLength(root, text);
      WeightedDepthIsCost(root, text, 0);
    }
    if root.Leaf? {
      LeafRootRun(root, text);
    } else {
      NodeRootRun(root, text);
    }
    decoded := DecodeText(root, encoded, 1);
    decodedAsWritten := DecodeText(root, encoded, 2);
  }

  /** A text of one distinct character: its single leaf is the root, its
      code is empty, and so is the encoded string. */
  lemma LeafRootRun(root: Tree, text: string)
    requires root.Leaf? && LeafChars(root) == Chars(text) && |text| > 0
    ensures Codes(root, "") == map[text[0] := ""]
    ensures Encoding(Codes(root, ""), text) == ""
  {
    assert text[0] in Chars(text);
    EncodingOfEmptyCodes(Codes(root, ""), text);
  }

  /** A text of at least two distinct characters: the codes are not empty,
      the corrected loop decodes the whole text, and the loop as written
      loses the last character exactly when its code is one bit long. */
  lemma NodeRootRun(root: Tree, text: string)
    requires root.Node? && LeafChars(root) == Chars(text) && |text| > 0
    ensures forall c :: c in Codes(root, "") ==> |Codes(root, "")[c]| > 0
    ensures DecodeWhile(root, -1, Encoding(Codes(root, ""), text), 1) == Some(text)
    ensures var last := text[|text| - 1];
      DecodeWhile(root, -1, Encoding(Codes(root, ""), text), 2) ==
      if |Codes(root, "")[last]| == 1 then Some(text[..|text| - 1]) else Some(text)
  {
    var codes := Codes(root, "");
    CodesArePaths(root);
    forall c | c in codes ensures |codes[c]| > 0 {
      CodeNonEmpty(root, codes, c);
    }
    EncodeThenDecode(root, text);
    AsWrittenWhole(root, text);
  }
}

=== FILE: decoder.dfy ===
/** Decoding: one symbol at a time, by walking the tree from the root along
    the encoded string, and the loop that repeats this until the bits run
    out. `index` is, as in file_compressor.cpp, the position of the last bit read
    (-1 before the first). */
module Decoder {
  import opened Wrappers
  import opened Trees
  import opened CodeTable

  /** One call of decode in file_compressor.cpp: starting at `t`, read the bit after
      `index`, go left on '0' and right on anything else, and repeat until a
      leaf is reached; return its character and the position of the last bit
      read. A leaf root reads nothing. None when the bits run out before a
      leaf is reached. */
  function DecodeSymbol(t: Tree, index: int, str: string): (r: Option<(char, int)>)
    requires -1 <= index < |str|
    ensures r.Some? ==> index <= r.value.1 < |str|
    ensures t.Node? && r.Some? ==> index < r.value.1
    decreases t
  {
    match t
    case Leaf(c, _) => Some((c, index))
    case Node(_, l, r) =>
      if index + 1 < |str| then
        DecodeSymbol(if str[index + 1] == '0' then l else r, index + 1, str)
      else None
  }

  /** The bits a successful decode consumed are the path to the leaf of the
      character it returns. */
  lemma {:induction false} DecodeSymbolReaches(t: Tree, index: int, str: string)
    requires -1 <= index < |str|
    requires DecodeSymbol(t, index, str).Some?
    ensures var (c, next) := DecodeSymbol(t, index, str).value;
      ReachesLeaf(t, str[index + 1..next + 1], c)
    decreases t
  {
    match t
    case Leaf(c, _) =>
      assert str[index + 1..index + 1] == [];
    case Node(_, l, r) =>
      var child := if str[index + 1] == '0' then l else r;
      DecodeSymbolReaches(child, index + 1, str);
      var j := DecodeSymbol(t, index, str).value.1;
      assert str[index + 1..j + 1][0] == str[index + 1];
      assert str[index + 1..j + 1][1..] == str[index + 2..j + 1];
  }

  /** Conversely, when the bits after `index` begin with a path to a leaf,
      decoding returns that leaf's character and advances past the path. */
  lemma {:induction false} DecodeSymbolOfPath(t: Tree, index: int, str: string, p: string, c: char)
    requires -1 <= index && index + |p| < |str|
    requires str[index + 1..index + 1 + |p|] == p
    requires ReachesLeaf(t, p, c)
    ensures DecodeSymbol(t, index, str) == Some((c, index + |p|))
    decreases |p|
  {
    if |p| > 0 {
      match t
      case Leaf(_, _) =>
      case Node(_, l, r) =>
        assert str[index + 1] == p[0];
        assert str[index + 2..index + 2 + |p[1..]|] == p[1..];
        DecodeSymbolOfPath(if p[0] == '0' then l else r, index + 1, str, p[1..], c);
    }
  }

  /** The decoding loop: decode a symbol while `index < |str| - margin`. The
      corrected guard has margin 1; the guard at line 116 of file_compressor.cpp has
      margin 2. The loop makes progress only from an internal root, so with a
      leaf root the guard must already be false. */
  function DecodeWhile(t: Tree, index: int, str: string, margin: nat): (r: Option<string>)
    requires -1 <= index < |str|
    requires t.Node? || index >= |str| - margin
    ensures r.Some? ==> forall k :: 0 <= k < |r.value| ==> r.value[k] in LeafChars(t)
    ensures t.Node? && r.Some? ==> |r.value| <= |str| - 1 - index
    decreases |str| - index
  {
    if index < |str| - margin then
      match DecodeSymbol(t, index, str)
      case None => None
      case Some((c, next)) =>
        DecodeSymbolReaches(t, index, str);
        ReachedLeafInTree(t, str[index + 1..next + 1], c);
        Prepend(c, DecodeWhile(t, next, str, margin))
    else Some([])
  }

  /** `c` followed by the decoded rest, or failure if the rest failed. */
  function Prepend(c: char, rest: Option<string>): Option<string> {
    if rest.Some? then Some([c] + rest.value) else None
  }

  /** Decoding of a whole encoded string with the corrected guard. */
  function DecodeAll(t: Tree, str: string): (r: Option<string>)
    requires t.Node? || |str| == 0
    ensures |str| == 0 ==> r == Some([])
    ensures t.Node? && r.Some? ==> |r.value| <= |str|
  {
    DecodeWhile(t, -1, str, 1)
  }

  /** Decoding of a whole encoded string with the guard as written at line
      116 of file_compressor.cpp. */
  function DecodeAllAsWritten(t: Tree, str: string): (r: Option<string>)
    requires t.Node? || |str| <= 1
    ensures |str| <= 1 ==> r == Some([])
    ensures t.Node? && r.Some? ==> |r.value| <= |str|
  {
    DecodeWhile(t, -1, str, 2)
  }

  /** One round of the loop: when the guard holds and a symbol is decoded,
      the result is that symbol followed by what the rest decodes to. */
  lemma DecodeWhileStep(t: Tree, index: int, str: string, margin: nat, c: char, next: int)
    requires -1 <= index < |str| - margin
    requires t.Node?
    requires DecodeSymbol(t, index, str) == Some((c, next))
    ensures index < next < |str|
    ensures DecodeWhile(t, index, str, margin) == Prepend(c, DecodeWhile(t, next, str, margin))
  {
  }
}

=== FILE: frequency.dfy ===
/** The counting pass of the coder: how often each character occurs in the
    input text, and the order in which the counted characters are handed to
    the priority queue. */
module Frequency {

  /** Number of occurrences of `c` in `text`; the reference notion of a
      character's frequency. */
  function Count(text: string, c: char): nat {
    multiset(text)[c]
  }

  /** The characters that occur in `text`. */
  ghost function Chars(text: string): set<char> {
    set c | c in text
  }

  /** The frequency table, built as the coder builds it: one scan from left
      to right that increments the counter of each character read, creating
      the entry (at zero) the first time the character is seen. */
  function FreqTable(text: string): (m: map<char, nat>)
    ensures m.Keys == Chars(text)
    ensures forall c :: c in m ==> m[c] == Count(text, c)
    decreases |text|
  {
    if |text| == 0 then map[]
    else
      var init := text[..|text| - 1];
      var c := text[|text| - 1];
      assert text == init + [c];
      var m := FreqTable(init);
      m[c := (if c in m then m[c] else 0) + 1]
  }

  /** The distinct characters of `text`, each once, in order of first
      occurrence. The coder visits the entries of an unordered map, whose
      order is unspecified; this is one admissible order. */
  function Distinct(text: string): (d: seq<char>)
    ensures forall i, j :: 0 <= i < j < |d| ==> d[i] != d[j]
    ensures forall c :: c in d <==> c in text
    decreases |text|
  {
    if |text| == 0 then []
    else
      var init := text[..|text| - 1];
      var c := text[|text| - 1];
      assert text == init + [c];
      var d := Distinct(init);
      if c in d then d else d + [c]
  }

  /** Sum of the counts in `text` of the characters listed in `d`. */
  function SumCounts(d: seq<char>, text: string): nat
    decreases |d|
  {
    if |d| == 0 then 0 else SumCounts(d[..|d| - 1], text) + Count(text, d[|d| - 1])
  }

  /** Reading one more character `c` adds one to the total count of a list
      of distinct characters exactly when `c` is in the list. */
  lemma {:induction false} SumCountsSnoc(d: seq<char>, text: string, c: char)
    requires forall i, j :: 0 <= i < j < |d| ==> d[i] != d[j]
    ensures SumCounts(d, text + [c]) == SumCounts(d, text) + (if c in d then 1 else 0)
    decreases |d|
  {
    if |d| > 0 {
      var init := d[..|d| - 1];
      assert d == init + [d[|d| - 1]];
      SumCountsSnoc(init, text, c);
      assert multiset(text + [c]) == multiset(text) + multiset{c};
    }
  }

  /** The counts of the table sum to the length of the text. */
  lemma {:induction false} CountsSumToLength(text: string)
    ensures SumCounts(Distinct(text), text) == |text|
    decreases |text|
  {
    if |text| > 0 {
      var init := text[..|text| - 1];
      var c := text[|text| - 1];
      assert text == init + [c];
      var d := Distinct(init);
      CountsSumToLength(init);
      SumCountsSnoc(d, init, c);
      if c !in d {
        assert d + [c] == Distinct(text);
        assert (d + [c])[..|d|] == d;
        assert c !in init;
        assert multiset(text) == multiset(init) + multiset{c};
      }
    }
  }

  /** The table has one entry per distinct character. */
  lemma {:induction false} DistinctCountsChars(text: string)
    ensures |Distinct(text)| == |Chars(text)|
    decreases |text|
  {
    if |text| > 0 {
      var init := text[..|text| - 1];
      var c := text[|text| - 1];
      assert text == init + [c];
      DistinctCountsChars(init);
      assert Chars(text) == Chars(init) + {c};
    }
  }
}

=== FILE: roundtrip.dfy ===
/** The encode/decode round trip in both directions, and the behaviour of the
    decoding loop with the guard as written at line 116 of file_compressor.cpp. */
module RoundTrip {
  import opened Wrappers
  import opened Frequency
  import opened Trees
  import opened CodeTable
  import opened Decoder

  /** `m` gives each character of the tree the path to its leaf. */
  ghost predicate PathTable(t: Tree, m: map<char, string>) {
    forall c :: c in LeafChars(t) ==> c in m && ReachesLeaf(t, m[c], c)
  }

  /** The code table built by the walk is a table of paths of bits. */
  lemma CodesArePaths(t: Tree)
    ensures PathTable(t, Codes(t, ""))
    ensures forall c :: c in Codes(t, "") ==> IsBits(Codes(t, "")[c])
  {
    var m := Codes(t, "");
    forall c | c in LeafChars(t)
      ensures ReachesLeaf(t, m[c], c) && IsBits(m[c])
    {
      CodeIsPath(t, "", c);
      CodeIsBits(t, "", c);
      assert m[c][0..] == m[c];
    }
  }

  /** Decoding, from just after an already consumed `prefix`, the encoding of
      a text over the tree's characters gives the text back. */
  lemma {:induction false} DecodeEncoded(t: Tree, m: map<char, string>, text: string, prefix: string, str: string)
    requires t.Node?
    requires PathTable(t, m)
    requires Chars(text) <= LeafChars(t)
    requires str == prefix + Encoding(m, text)
    ensures DecodeWhile(t, |prefix| - 1, str, 1) == Some(text)
    decreases |text|, 1
  {
    if |text| == 0 {
      assert str == prefix && text == [];
    } else {
      var c := text[0];
      var rest := text[1..];
      CharsCons(text);
      var tail := Encoding(m, rest);
      assert str == prefix + m[c] + tail;
      DecodeEncodedRest(t, m, c, rest, prefix, str);
      DecodeCodeStep(t, m, c, prefix, tail, str, 1);
      assert text == [c] + rest;
    }
  }

  /** The inductive step of `DecodeEncoded`: after the first code, the rest
      of the text is decoded. */
  lemma {:induction false} DecodeEncodedRest(t: Tree, m: map<char, string>, c: char, rest: string, prefix: string, str: string)
    requires t.Node? && PathTable(t, m)
    requires c in LeafChars(t) && Chars(rest) <= LeafChars(t)
    requires str == prefix + m[c] + Encoding(m, rest)
    ensures |m[c]| > 0 && |prefix| + |m[c]| <= |str|
    ensures DecodeWhile(t, |prefix| + |m[c]| - 1, str, 1) == Some(rest)
    decreases |rest| + 1, 0
  {
    CodeNonEmpty(t, m, c);
    assert str == (prefix + m[c]) + Encoding(m, rest);
    DecodeEncoded(t, m, rest, prefix + m[c], str);
  }

  /** Below an internal root every path to a leaf has at least one bit. */
  lemma CodeNonEmpty(t: Tree, m: map<char, string>, c: char)
    requires t.Node? && PathTable(t, m) && c in LeafChars(t)
    ensures |m[c]| > 0
  {
  }

  /** The first symbol decoded after `prefix` is the one whose code follows. */
  lemma DecodeFirst(t: Tree, c: char, prefix: string, code: string, tail: string, str: string)
    requires t.Node? && ReachesLeaf(t, code, c)
    requires str == prefix + code + tail
    ensures |code| > 0
    ensures DecodeSymbol(t, |prefix| - 1, str) == Some((c, |prefix| + |code| - 1))
  {
    assert str[|prefix|..|prefix| + |code|] == code;
    DecodeSymbolOfPath(t, |prefix| - 1, str, code, c);
  }

  /** One round of the decoding loop over a code taken from a path table:
      it yields the code's character and resumes after the code. */
  lemma DecodeCodeStep(t: Tree, m: map<char, string>, c: char, prefix: string, tail: string, str: string, margin: nat)
    requires t.Node? && PathTable(t, m) && c in LeafChars(t)
    requires str == prefix + m[c] + tail
    requires |m[c]| + |tail| >= margin
    ensures |m[c]| > 0
    ensures DecodeWhile(t, |prefix| - 1, str, margin) ==
      Prepend(c, DecodeWhile(t, |prefix| + |m[c]| - 1, str, margin))
  {
    var code := m[c];
    DecodeFirst(t, c, prefix, code, tail, str);
    DecodeWhileStep(t, |prefix| - 1, str, margin, c, |prefix| + |code| - 1);
  }

  /** The last element of, and all but the last element of, `[c] + s`. */
  lemma ConsLast<T>(c: T, s: seq<T>)
    requires |s| > 0
    ensures ([c] + s)[|s|] == s[|s| - 1]
    ensures ([c] + s)[..|s|] == [c] + s[..|s| - 1]
  {
  }

  /** Round trip: with an internal root, which a tree built from a text with
      at least two distinct characters has, decoding the encoding of any text
      over the tree's characters gives that text back. */
  lemma EncodeThenDecode(t: Tree, text: string)
    requires t.Node?
    requires Chars(text) <= LeafChars(t)
    ensures DecodeAll(t, Encoding(Codes(t, ""), text)) == Some(text)
  {
    var m := Codes(t, "");
    CodesArePaths(t);
    DecodeEncoded(t, m, text, "", Encoding(m, text));
  }

  /** The other direction: a string of bits that decodes completely is the
      encoding of what it decodes to. */
  lemma {:induction false} EncodeDecoded(t: Tree, m: map<char, string>, index: int, str: string)
    requires t.Node? && DistinctLeaves(t)
    requires PathTable(t, m)
    requires forall c :: c in m ==> IsBits(m[c])
    requires IsBits(str)
    requires -1 <= index <= |str| - 1
    requires DecodeWhile(t, index, str, 1).Some?
    ensures Encoding(m, DecodeWhile(t, index, str, 1).value) == str[index + 1..]
    decreases |str| - index
  {
    if index < |str| - 1 {
      DecodedStep(t, index, str, 1);
      var (c, next) := DecodeSymbol(t, index, str).value;
      var p := str[index + 1..next + 1];
      assert p == m[c] by {
        DecodeSymbolReaches(t, index, str);
        ReachedLeafInTree(t, p, c);
        assert IsBits(p);
        PathUnique(t, p, m[c], c);
      }
      EncodeDecoded(t, m, next, str);
      var rest := DecodeWhile(t, next, str, 1).value;
      EncodingCons(m, c, rest);
      SliceSplit(str, index + 1, next + 1);
    } else {
      assert str[index + 1..] == [];
    }
  }

  /** A loop round that succeeds decodes a symbol and then the rest. */
  lemma DecodedStep(t: Tree, index: int, str: string, margin: nat)
    requires -1 <= index < |str| - margin
    requires t.Node?
    requires DecodeWhile(t, index, str, margin).Some?
    ensures DecodeSymbol(t, index, str).Some?
    ensures var (c, next) := DecodeSymbol(t, index, str).value;
      && index < next < |str|
      && DecodeWhile(t, next, str, margin).Some?
      && DecodeWhile(t, index, str, margin).value == [c] + DecodeWhile(t, next, str, margin).value
  {
  }

  /** A suffix of `s` split at `j`. */
  lemma SliceSplit<T>(s: seq<T>, i: int, j: int)
    requires 0 <= i <= j <= |s|
    ensures s[i..] == s[i..j] + s[j..]
  {
  }

  /** Decoding is the inverse of encoding on strings of bits: a bit string
      decodes to `text` exactly when it is the encoding of `text`. */
  lemma DecodeIffEncode(t: Tree, text: string, str: string)
    requires t.Node? && DistinctLeaves(t)
    requires Chars(text) <= LeafChars(t)
    requires IsBits(str)
    ensures DecodeAll(t, str) == Some(text) <==> str == Encoding(Codes(t, ""), text)
  {
    var m := Codes(t, "");
    CodesArePaths(t);
    if str == Encoding(m, text) {
      EncodeThenDecode(t, text);
    }
    if DecodeAll(t, str) == Some(text) {
      EncodeDecoded(t, m, -1, str);
      assert str[0..] == str;
    }
  }

  /** With the guard of line 116, `index < |str| - 2`, the loop stops before
      the last symbol whenever that symbol's code is one bit long, and
      otherwise decodes the whole text. */
  lemma {:induction false} AsWrittenDecode(t: Tree, m: map<char, string>, text: string, prefix: string, str: string)
    requires t.Node?
    requires PathTable(t, m)
    requires Chars(text) <= LeafChars(t)
    requires str == prefix + Encoding(m, text)
    ensures DecodeWhile(t, |prefix| - 1, str, 2) ==
      if |text| > 0 && |m[text[|text| - 1]]| == 1 then Some(text[..|text| - 1]) else Some(text)
    decreases |text|, 1
  {
    if |text| == 0 {
      assert str == prefix;
    } else {
      var c := text[0];
      var rest := text[1..];
      CharsCons(text);
      var code := m[c];
      var tail := Encoding(m, rest);
      assert str == prefix + code + tail;
      assert text == [c] + rest;
      if |rest| > 0 {
        CodeNonEmpty(t, m, c);
        AsWrittenRest(t, m, c, rest, prefix, str);
        DecodeCodeStep(t, m, c, prefix, tail, str, 2);
        ConsLast(c, rest);
      } else {
        assert str == prefix + code;
        AsWrittenSingle(t, m, c, prefix, str);
      }
    }
  }

  /** The loop of line 116 over the code of one character: it decodes the
      character only when the code is at least two bits long. */
  lemma AsWrittenSingle(t: Tree, m: map<char, string>, c: char, prefix: string, str: string)
    requires t.Node? && PathTable(t, m) && c in LeafChars(t)
    requires str == prefix + m[c]
    ensures DecodeWhile(t, |prefix| - 1, str, 2) == if |m[c]| == 1 then Some([]) else Some([c])
  {
    CodeNonEmpty(t, m, c);
    if |m[c]| >= 2 {
      assert str == prefix + m[c] + [];
      DecodeCodeStep(t, m, c, prefix, [], str, 2);
      assert DecodeWhile(t, |prefix| + |m[c]| - 1, str, 2) == Some([]);
      assert [c] + [] == [c];
    } else {
      assert |prefix| - 1 >= |str| - 2;
    }
  }

  /** The first character and the characters of the rest are characters of
      the text. */
  lemma CharsCons(text: string)
    requires |text| > 0
    ensures text[0] in Chars(text) && Chars(text[1..]) <= Chars(text)
  {
    forall x | x in Chars(text[1..]) ensures x in text { }
  }

  /** The inductive step of `AsWrittenDecode`: what the loop of line 116
      decodes after the first code of a text of two or more characters. */
  lemma {:induction false} AsWrittenRest(t: Tree, m: map<char, string>, c: char, rest: string, prefix: string, str: string)
    requires t.Node? && PathTable(t, m)
    requires c in LeafChars(t) && Chars(rest) <= LeafChars(t) && |rest| > 0
    requires str == prefix + m[c] + Encoding(m, rest)
    ensures |m[c]| > 0 && |prefix| + |m[c]| < |str|
    ensures DecodeWhile(t, |prefix| + |m[c]| - 1, str, 2) ==
      if |m[rest[|rest| - 1]]| == 1 then Some(rest[..|rest| - 1]) else Some(rest)
    decreases |rest| + 1, 0
  {
    var code := m[c];
    CodeNonEmpty(t, m, c);
    assert |Encoding(m, rest)| > 0 by {
      var d := rest[0];
      assert d in Chars(rest);
      CodeNonEmpty(t, m, d);
      EncodingCons(m, d, rest[1..]);
      assert rest == [d] + rest[1..];
    }
    assert str == (prefix + code) + Encoding(m, rest);
    AsWrittenDecode(t, m, rest, prefix + code, str);
  }

  /** The loop of line 116 run over the encoding of a whole text. */
  lemma AsWrittenWhole(t: Tree, text: string)
    requires t.Node?
    requires Chars(text) <= LeafChars(t) && |text| > 0
    ensures text[|text| - 1] in Codes(t, "")
    ensures DecodeAllAsWritten(t, Encoding(Codes(t, ""), text)) ==
      if |Codes(t, "")[text[|text| - 1]]| == 1 then Some(text[..|text| - 1]) else Some(text)
  {
    var m := Codes(t, "");
    var str := Encoding(m, text);
    assert text[|text| - 1] in Chars(text);
    CodesArePaths(t);
    assert str == "" + str;
    AsWrittenDecode(t, m, text, "", str);
  }

  /** The smallest witness: for "ab" both codes are one bit long, the text
      encodes to "01", and the loop of line 116 decodes only "a", where the
      corrected loop decodes "ab". */
  lemma AsWrittenDropsLastSymbol()
    ensures var t := Node(2, Leaf('a', 1), Leaf('b', 1));
            && Consistent(t, "ab")
            && Encoding(Codes(t, ""), "ab") == "01"
            && DecodeAllAsWritten(t, "01") == Some("a")
            && DecodeAll(t, "01") == Some("ab")
  {
    var t := Node(2, Leaf('a', 1), Leaf('b', 1));
    assert multiset("ab")['a'] == 1 && multiset("ab")['b'] == 1;
    var m := Codes(t, "");
    assert m == map['a' := "0", 'b' := "1"] by {
      assert "" + "0" == "0" && "" + "1" == "1";
      assert Codes(Leaf('a', 1), "0") == map['a' := "0"];
      assert Codes(Leaf('b', 1), "1") == map['b' := "1"];
    }
    CodesArePaths(t);
    assert Chars("ab") <= LeafChars(t) by {
      forall x | x in Chars("ab") ensures x in LeafChars(t) { }
    }
    assert Encoding(m, "ab") == "01" by {
      assert "ab"[1..] == "b";
    }
    AsWrittenDecode(t, m, "ab", "", "01");
    EncodeThenDecode(t, "ab");
  }
}

=== FILE: trees.dfy ===
/** The Huffman tree: leaves carry a character and its frequency, internal
    nodes carry a frequency and exactly two children. A node with one child
    cannot be written, so every tree of this type is a full binary tree. */
module Trees {
  import opened Wrappers
  import opened Frequency

  datatype Tree = Leaf(ch: char, freq: nat) | Node(freq: nat, left: Tree, right: Tree)

  /** The characters at the leaves of `t`. */
  function LeafChars(t: Tree): set<char>
    decreases t
  {
    match t
    case Leaf(c, _) => {c}
    case Node(_, l, r) => LeafChars(l) + LeafChars(r)
  }

  /** No character labels two leaves. */
  ghost predicate DistinctLeaves(t: Tree)
    decreases t
  {
    match t
    case Leaf(_, _) => true
    case Node(_, l, r) => LeafChars(l) !! LeafChars(r) && DistinctLeaves(l) && DistinctLeaves(r)
  }

  /** `t` is a tree the builder can produce from `text`: each leaf weighs the
      number of occurrences of its character (so at least one), each internal
      node weighs the sum of its children, and no character labels two
      leaves. */
  ghost predicate Consistent(t: Tree, text: string)
    decreases t
  {
    match t
    case Leaf(c, f) => f == Count(text, c) && f > 0
    case Node(f, l, r) =>
      && f == l.freq + r.freq
      && LeafChars(l) !! LeafChars(r)
      && Consistent(l, text)
      && Consistent(r, text)
  }

  function LeafCount(t: Tree): nat
    decreases t
  {
    match t
    case Leaf(_, _) => 1
    case Node(_, l, r) => LeafCount(l) + LeafCount(r)
  }

  function InternalCount(t: Tree): nat
    decreases t
  {
    match t
    case Leaf(_, _) => 0
    case Node(_, l, r) => 1 + InternalCount(l) + InternalCount(r)
  }

  /** Sum of the frequencies of the internal nodes: the total weight created
      by the merges that built `t`. */
  function Cost(t: Tree): nat
    decreases t
  {
    match t
    case Leaf(_, _) => 0
    case Node(f, l, r) => f + Cost(l) + Cost(r)
  }

  /** The node reached by walking from `t` along `bits`, going left on '0'
      and right on any other character; None when the walk runs into a leaf
      before the bits are used up. */
  function Follow(t: Tree, bits: string): Option<Tree>
    decreases |bits|
  {
    if |bits| == 0 then Some(t)
    else
      match t
      case Leaf(_, _) => None
      case Node(_, l, r) => Follow(if bits[0] == '0' then l else r, bits[1..])
  }

  /** Walking along `bits` from `t` ends exactly on a leaf labelled `c`. */
  ghost predicate ReachesLeaf(t: Tree, bits: string, c: char) {
    var n := Follow(t, bits);
    n.Some? && n.value.Leaf? && n.value.ch == c
  }

  /** A consistent tree holds only characters of the text, no character
      twice, and weighs the counts of its leaves. */
  lemma {:induction false} ConsistentFacts(t: Tree, text: string)
    requires Consistent(t, text)
    ensures DistinctLeaves(t)
    ensures LeafChars(t) <= Chars(text)
    ensures t.freq > 0
    decreases t
  {
    match t
    case Leaf(c, f) =>
      assert c in multiset(text);
    case Node(f, l, r) =>
      ConsistentFacts(l, text);
      ConsistentFacts(r, text);
  }

  /** A full binary tree has one internal node fewer than it has leaves. */
  lemma {:induction false} InternalIsLeavesMinusOne(t: Tree)
    ensures InternalCount(t) + 1 == LeafCount(t)
    decreases t
  {
    match t
    case Leaf(_, _) =>
    case Node(_, l, r) =>
      InternalIsLeavesMinusOne(l);
      InternalIsLeavesMinusOne(r);
  }

  /** With distinct leaves, the leaves are in one-to-one correspondence with
      their characters. */
  lemma {:induction false} LeafCountIsCharCount(t: Tree)
    requires DistinctLeaves(t)
    ensures LeafCount(t) == |LeafChars(t)|
    decreases t
  {
    match t
    case Leaf(_, _) =>
    case Node(_, l, r) =>
      LeafCountIsCharCount(l);
      LeafCountIsCharCount(r);
  }

  /** A tree is a single leaf exactly when it holds one character, once. */
  lemma {:induction false} SingleLeafIffOneChar(t: Tree)
    requires DistinctLeaves(t)
    ensures t.Leaf? <==> |LeafChars(t)| == 1
    decreases t
  {
    match t
    case Leaf(_, _) =>
    case Node(_, l, r) =>
      LeafCharsNonEmpty(l);
      LeafCharsNonEmpty(r);
  }

  lemma {:induction false} LeafCharsNonEmpty(t: Tree)
    ensures |LeafChars(t)| >= 1
    decreases t
  {
    match t
    case Leaf(c, _) =>
    case Node(_, l, r) =>
      LeafCharsNonEmpty(l);
      assert LeafChars(l) <= LeafChars(t);
  }

  /** Walking `p + q` is walking `p`, then walking `q` from where `p` ends. */
  lemma {:induction false} FollowAppend(t: Tree, p: string, q: string)
    ensures Follow(t, p + q) == (if Follow(t, p).Some? then Follow(Follow(t, p).value, q) else None)
    decreases |p|
  {
    if |p| == 0 {
      assert p + q == q;
    } else {
      assert (p + q)[0] == p[0];
      assert (p + q)[1..] == p[1..] + q;
      match t
      case Leaf(_, _) =>
      case Node(_, l, r) =>
        FollowAppend(if p[0] == '0' then l else r, p[1..], q);
    }
  }
}

=== FILE: wrappers.dfy ===
/** Optional values, for operations of the coder that can fail. */
module Wrappers {

  /** Either no value or exactly one value. */
  datatype Option<+T> = None | Some(value: T)
}
